=== FILE: README.md ===
# CareNote record store, modelled in Dafny

CareNote keeps counselling records for one institution. It has two SQLite tables:
- `students`: name, phone, grade, class, sex and a grade/class history;
- `consultings`: counselling sessions, each naming a student.

This project models three parts:
- **The schema** (`init_database` in `carenote/database.py`): the CHECK domains, the NOT NULL columns, the defaults, AUTOINCREMENT ids, and the foreign key from a consulting to its student with `ON DELETE CASCADE`.
- **The two records** (`carenote/models.py`): the `Student` and `Consulting` dataclasses, `to_dict`, and the append-only history.
- **The operations** (`StudentCRUD` and `ConsultingCRUD` in `carenote/crud.py`): create, get, get_all, get_by_student, update, delete and search.

The database is an immutable `Store`. It holds one map per table, from id to record, plus each table's AUTOINCREMENT sequence value. Each SQL statement is a pure function.
- A write returns a `Step`: the tables afterwards, plus either the value returned (`Ok`) or the SQLite error raised (`Err`).
- A raised error leaves the tables as they were, because the statement aborts and nothing is committed.
- A read returns the rows it selects.

`Valid` is the invariant the database keeps. It requires that:
- every record carries its own key;
- every value lies in its CHECK domain;
- no id exceeds its table's sequence;
- every consulting's student exists.

Modules, in dependency order:
- `Sql`: NULL as `Option`, SQLite errors, Python truthiness of arguments, and patch fields.
- `Text`: the BINARY-collation string order, NULL-first ordering, and `LIKE '%x%'`.
- `Models`: the two dataclasses, `to_dict`, the `**dict(row)` constructor, and `add_history`.
- `Database`: the schema constraints, the `Store`, `Valid`, and AUTOINCREMENT id assignment.
- `Tables`: a full table scan, a WHERE clause, and ORDER BY.
- `StudentCrud` and `ConsultingCrud`: the operations.
- `StoreLemmas`: properties that relate several operations.

Modelling decisions:
- **History trigger.** It follows `crud.py:62` and `crud.py:74`. The history grows by the stored (grade, class) pair when the update names `student_grade` or `student_class` and the stored grade and class are both truthy. This holds even if only one of the two is named, if the new value equals the old one, or if the new value is NULL. In a valid store a stored grade or class is never 0, so "truthy" means "not NULL" (`StoreLemmas.TriggerIsBothNonNull`).
- **Behaviour of the code worth knowing:**
  - Naming only the grade (or only the class) in an update still appends history (`crud.py:62`, `crud.py:74`; see `StoreLemmas.HistoryScenario`).
  - The schema rejects only NULL names and titles (`database.py:23`, `database.py:36`), so the empty string is stored (`StoreLemmas.NewStudentIsStored` holds for every name).
  - `ORDER BY student_name` (`crud.py:49`) uses SQLite's BINARY collation: code-point order, with a proper prefix first (`Text.LexLe`).
  - `update` with a non-empty patch, and `delete`, of an unknown id raise nothing and change nothing, even when the patch itself would violate a CHECK; an empty patch is malformed whatever the id (`crud.py:81-84`, `crud.py:94`, `crud.py:194-197`, `crud.py:207`).
  - `StudentCRUD.search` has no ORDER BY (`crud.py:104-117`), so no order of its results is promised.
- **Edge cases of the code that are modelled:**
  - An update that names `student_history` itself writes that list as given when the grade/class trigger does not fire (`crud.py:76-84`); this is the one way a history can shrink (`StudentCrud.UpdatedHistory`).
  - A patch with no keys builds `UPDATE students SET  WHERE …`, which SQLite rejects. It is modelled as `Err(MalformedStatement)`.
  - A record whose `id` is already set keeps that id on `create` (`to_dict` keeps it). If the id is taken, the insert fails with a primary-key error.
  - A consulting create checks in SQLite's order: CHECK constraints first, then the primary key, then the foreign key.
  - NULL sorts first in SQLite, so under `ORDER BY consulting_date DESC` undated consultings come last. A NULL date never satisfies a date bound.

## Model

| member | source | states |
|---|---|---|
| Models.NewStudent | carenote/models.py:8-17 | A student built from a name alone has no id, NULL phone, grade, class and sex, and an empty history |
| Models.NewConsulting | carenote/models.py:34-45 | A consulting built from a title and student id has no id and every optional column NULL |
| Models.StudentToDict | carenote/models.py:29-31 | `to_dict` holds exactly the columns whose attribute is not None, each mapped to that attribute; the name and history are always present, the id exactly when it is set |
| Models.ConsultingToDict | carenote/models.py:47-49 | The same for a consulting; the title and student id are always present; the id and the date are present exactly when set |
| Models.StudentFields | carenote/models.py:29-31 | `asdict` lists every column with its attribute value |
| Models.ConsultingFields | carenote/models.py:47-49 | `asdict` of a consulting lists every column with its attribute value |
| Models.StudentFromDict | carenote/crud.py:41 | `Student(**row)` builds a student carrying the row's name, and an omitted history becomes the empty list; it builds nothing when the name is missing, or when a value does not fit the record's field types (which Python itself does not check) |
| Models.ConsultingFromDict | carenote/crud.py:157 | `Consulting(**row)` builds a consulting carrying the row's title and student id; it builds nothing when either is missing, or when a value does not fit the record's field types (which Python itself does not check) |
| Models.StudentDictRoundTrip | carenote/models.py:29-31 | Rebuilding a student from its `to_dict`, or from all its fields, gives the same student back |
| Models.ConsultingDictRoundTrip | carenote/models.py:47-49 | Rebuilding a consulting from its `to_dict`, or from all its fields, gives the same consulting back |
| Models.StudentDictInverse | carenote/models.py:29-31 | Any NULL-free column map with a history that builds a student is exactly that student's `to_dict` |
| Models.ConsultingDictInverse | carenote/models.py:47-49 | Any NULL-free column map that builds a consulting is exactly that consulting's `to_dict` |
| Models.AddHistory | carenote/models.py:23-27 | `add_history(g, c)` makes the history one longer, keeps every earlier entry, puts (g, c) last and changes no other attribute |
| Models.AddHistoryTwice | carenote/models.py:19-27 | Two appends leave the old history followed by both pairs in order |
| Database.InDomain | carenote/database.py:25-27 | `CHECK(column IN (...))`: NULL passes, any other value must be listed |
| Database.StudentChecks | carenote/database.py:25-27 | A student passes the table's CHECKs: grade, class and sex NULL or in their lists |
| Database.StudentChecksAsRanges | carenote/database.py:25-27 | The student CHECKs hold exactly when a grade is 1 to 6, a class 1 to 4 and a sex one of the two labels, each when present |
| Database.ConsultingChecks | carenote/database.py:39-40 | A consulting passes the table's CHECKs: type and counterpart NULL or in their lists |
| Database.NoOrphans | carenote/database.py:44 | The foreign key: every consulting's student id is a stored student |
| Database.Valid | carenote/database.py:21-45 | What the schema guarantees of every state: rows keyed by their id, values in their domains, ids within their sequences, no orphans |
| Database.EmptyStore | carenote/database.py:14-46 | The freshly created tables are empty and satisfy every constraint |
| Database.NextId | carenote/database.py:22 | An AUTOINCREMENT id is above the sequence and every present key, and is the least such value |
| Tables.Rows | carenote/crud.py:179 | A full scan returns every stored record, each exactly once, and every row it returns is stored under some key |
| Tables.Filter | carenote/crud.py:117 | A WHERE clause keeps each row as often as it occurs if the row satisfies the condition, and drops it otherwise |
| Tables.FilterKeepsAll | carenote/crud.py:104 | A WHERE clause every row satisfies, such as `1=1` alone, returns the rows unchanged |
| Tables.SortBy | carenote/crud.py:49 | ORDER BY returns a permutation of the rows in which every earlier row orders before every later one |
| Tables.NameAscendingIsTotalPreorder | carenote/crud.py:49 | Ordering by name is total and transitive |
| Tables.DateDescendingIsTotalPreorder | carenote/crud.py:179 | Ordering by date, descending with NULL last, is total and transitive |
| Text.LexLeTotal | carenote/crud.py:49 | Any two names are comparable under BINARY collation |
| Text.LexLeTransitive | carenote/crud.py:49 | The BINARY collation order is transitive |
| Text.LexLeAntisymmetric | carenote/crud.py:49 | Two names each ordered before the other are equal |
| Text.PrefixLexLe | carenote/crud.py:49 | A prefix sorts before the longer string |
| Text.Fold | carenote/crud.py:108 | LIKE folds exactly the ASCII capitals A-Z to lower case and keeps every other character |
| Text.LikeOwnSlice | carenote/crud.py:108-109 | `name LIKE '%x%'` holds for every substring x of the name |
| Text.LikeIgnoresAsciiCase | carenote/crud.py:108-109 | LIKE does not distinguish ASCII case in the pattern |
| StudentCrud.InsertedRowOfDict | carenote/crud.py:17-24 | Inserting a student's `to_dict` stores that student; omitted columns take the schema defaults |
| StudentCrud.Create | carenote/crud.py:11-29 | Succeeds exactly when every value is in its domain and no explicit id is taken; otherwise fails with the CHECK error or the key error, changing nothing; on success the new id is fresh, above the sequence when assigned, and the student is stored under it |
| StudentCrud.Get | carenote/crud.py:31-42 | Returns the stored student exactly when the id is present |
| StudentCrud.GetAll | carenote/crud.py:44-53 | Returns every student exactly once, ordered by name |
| StudentCrud.RecordsHistory | carenote/crud.py:62-74 | The history trigger: grade or class named in the patch, and the stored grade and class both truthy |
| StudentCrud.UpdatedHistory | carenote/crud.py:62-76 | When triggered, the written history is the stored one with the stored (grade, class) pair appended; otherwise it is the history the patch gives explicitly, or, when it gives none, the stored one unchanged |
| StudentCrud.Update | carenote/crud.py:55-87 | An empty patch is malformed; an unknown id changes nothing; for a stored student the update succeeds exactly when the name is not set to NULL and every written value is in its domain; on success only the patched columns of that student change, and the history grows as the trigger says |
| StudentCrud.Delete | carenote/crud.py:89-96 | Removes the student and exactly the consultings that name it; every other record stays |
| StudentCrud.Search | carenote/crud.py:98-121 | Returns each student exactly once when it meets every truthy filter (name substring, grade, class), and no one else |
| ConsultingCrud.InsertedRowOfDict | carenote/crud.py:133-140 | Inserting a consulting's `to_dict` stores it, with the date defaulting to the current time |
| ConsultingCrud.Create | carenote/crud.py:127-145 | Succeeds exactly when every value is in its domain, no explicit id is taken and the student exists; otherwise fails with the CHECK, primary-key or foreign-key error, in that order, changing nothing; on success the consulting is stored under a fresh id, with the date defaulted when omitted |
| ConsultingCrud.Get | carenote/crud.py:147-158 | Returns the stored consulting exactly when the id is present |
| ConsultingCrud.GetByStudent | carenote/crud.py:160-172 | Returns exactly the consultings of that student, each once, latest date first |
| ConsultingCrud.GetAll | carenote/crud.py:174-183 | Returns every consulting exactly once, latest date first |
| ConsultingCrud.Update | carenote/crud.py:185-200 | An empty patch is malformed; an unknown id changes nothing; for a stored consulting the update succeeds exactly when neither the title nor the student id is set to NULL, every written value is in its domain and the student named exists; on success only the patched columns change and the student still exists |
| ConsultingCrud.Delete | carenote/crud.py:202-208 | Removes only that consulting |
| ConsultingCrud.SearchConditionsMatch | carenote/crud.py:218-239 | The WHERE clause built from the truthy arguments holds exactly when the join and every given filter hold |
| ConsultingCrud.Search | carenote/crud.py:211-247 | Returns each consulting exactly once when its student exists and it meets every truthy filter (title, student name, type, inclusive date bounds), and no other; results are latest date first |
| StoreLemmas.StudentCreateKeepsValid | carenote/database.py:21-29 | A student insert keeps every table constraint |
| StoreLemmas.StudentUpdateKeepsValid | carenote/crud.py:78-84 | A student update keeps every table constraint |
| StoreLemmas.StudentDeleteKeepsValid | carenote/database.py:44 | Thanks to the cascade, a student delete leaves no orphaned consulting |
| StoreLemmas.ConsultingCreateKeepsValid | carenote/database.py:34-45 | A consulting insert keeps every table constraint, the foreign key included |
| StoreLemmas.ConsultingUpdateKeepsValid | carenote/crud.py:191-197 | A consulting update keeps every table constraint |
| StoreLemmas.ConsultingDeleteKeepsValid | carenote/crud.py:202-208 | A consulting delete keeps every table constraint |
| StoreLemmas.StudentCreateThenGet | carenote/crud.py:11-42 | Creating a student with in-domain values and no taken id succeeds, and `get` of the new id returns the supplied student with that id |
| StoreLemmas.ConsultingCreateThenGet | carenote/crud.py:127-158 | Creating a consulting with in-domain values, no taken id and an existing student succeeds, and `get` of the new id returns it as supplied, with the date defaulting to the current time |
| StoreLemmas.NewStudentIsStored | carenote/database.py:21-28 | A student given only a name, even an empty one, is stored under the next AUTOINCREMENT id with NULL columns and an empty history |
| StoreLemmas.ConsultingForUnknownStudentRefused | carenote/database.py:44 | A consulting with in-domain values and no explicit id that names no existing student is refused with a foreign-key error and nothing is stored (an out-of-domain value or a taken id is reported first) |
| StoreLemmas.SequencesNeverDecrease | carenote/database.py:22 | No operation lowers an AUTOINCREMENT sequence |
| StoreLemmas.DeletedStudentIdNotReused | carenote/database.py:22 | After a student is deleted, a later insert without an explicit id never receives its id (one given explicitly may reclaim it) |
| StoreLemmas.DeletedConsultingIdNotReused | carenote/database.py:35 | After a consulting is deleted, directly or by the cascade, a later insert without an explicit id never receives its id |
| StoreLemmas.CascadeRemovesExactlyItsConsultings | carenote/database.py:44 | After a student delete, `get_by_student` is empty, each of its consultings is gone, and every other consulting is unchanged |
| StoreLemmas.ConsultingDeleteRemovesOnlyIt | carenote/crud.py:202-208 | After a consulting delete it is gone; every other consulting and every student reads as before |
| StoreLemmas.TriggerIsBothNonNull | carenote/crud.py:62-74 | In a valid store the history trigger fires exactly when grade or class is named and the stored grade and class are both non-NULL |
| StoreLemmas.UpdateHistoryEffect | carenote/crud.py:61-84 | A successful update appends exactly the stored in-domain (grade, class) pair when triggered, and otherwise writes the patch's explicit `student_history`, or keeps the stored history when the patch gives none |
| StoreLemmas.HistoryOnlyGrows | carenote/crud.py:71-76 | Without an explicit history, an update keeps the old history as a prefix and adds at most one entry; an explicit `student_history` in an untriggered update is the only way a history can shrink |
| StoreLemmas.OutOfDomainUpdateRefused | carenote/crud.py:76-84 | A patch with an out-of-domain grade or class is refused as a whole; the record and its history stay as they were |
| StoreLemmas.HistoryScenario | carenote/crud.py:55-87 | A student in grade 3 class 2, moved to 4/1 and then to grade 5 alone, ends in grade 5 class 1 with history [(3,2), (4,1)] |
| StoreLemmas.StudentFound | carenote/crud.py:104-117 | A student is found by a search exactly when it is stored and meets every filter whose argument is truthy |
| StoreLemmas.StudentSearchIsConjunction | carenote/crud.py:104-117 | A multi-filter student search finds exactly what each single-filter search also finds |
| StoreLemmas.OwnerStored | carenote/database.py:44 | In a store without orphans, the student of every stored consulting is stored too |
| StoreLemmas.FoundWithoutFiltersAsByGetAll | carenote/crud.py:218-243 | A consulting is found by a search with no filter exactly as many times as `get_all` lists it |
| StoreLemmas.ConsultingSearchWithoutFiltersIsGetAll | carenote/crud.py:218-243 | With no filter, a consulting search in a valid store returns the same consultings as `get_all`, each once (the join drops nothing); both lists are newest first, and rows with equal dates may come in a different order |
| StoreLemmas.DateRangeSearchWithinBounds | carenote/crud.py:234-239 | Every consulting returned by a date-range search is dated within the inclusive range |
| StoreLemmas.StudentFoundByPartOfName | carenote/crud.py:107-109 | A search by any piece of a student's name finds that student |

## Left out

- The Qt window, the terminal interface and the entry points (`gui.py`, `cli.py`, `main.py`, `main_gui.py`) are input collection and display, not part of this model. Their form checks are also outside it: the non-empty name and the end date not before the start.
- `config.py`, `get_connection` and committing: file paths and the connection lifecycle are I/O. Every statement is atomic, and a failed statement changes nothing.
- The clock: `datetime('now','localtime')` becomes the `now` parameter of `ConsultingCrud.Create`.
- JSON text: the history is a sequence of (grade, class) entries, not the JSON string it is stored as. So `get_history` is the sequence itself, and `ensure_ascii`, parse errors and a NULL or malformed history column are not modelled.
- LIKE wildcards: a `%` or `_` in the search text is taken literally, not as a wildcard. Case folding is ASCII-only, as in SQLite.
- Tie order under ORDER BY, and the ascending-id scan order: no query promises either, so no contract does.
- Indexes (`database.py:49-57`): they affect performance only.
- The 64-bit id limit: ids are unbounded integers, so SQLITE_FULL after id 2^63-1 is not modelled.
- SQLite's dynamic typing: a column holds only values of its declared type. The patch types already rule out a text grade or an integer name.
- Identity columns are not patchable: a student patch cannot set `student_id`, and a consulting patch cannot set `consulting_id`.
- A student patch can set the history only to a list, never to NULL.
- Unknown keyword arguments to `update` (which SQLite rejects as unknown columns) cannot be expressed in the patch records.
- StudentCrud.Create: a None name (the NOT NULL error on INSERT, `database.py:23`) cannot be expressed, because the record's name is not optional.
- ConsultingCrud.Create: a None title or student id (the NOT NULL errors on INSERT, `database.py:36`, `database.py:38`) cannot be expressed, because those fields are not optional.
- Models.StudentFromDict: builds nothing for a NULL or non-text name, or a mistyped value, which Python's untyped dataclass would accept; the typed record cannot hold such values.
- Models.ConsultingFromDict: builds nothing for a NULL or mistyped title, student id or other value, which Python's untyped dataclass would accept; the typed record cannot hold such values.
- StudentCrud.Search: states which students are returned and how often, but no order, because the source has no ORDER BY.

=== FILE: consulting_crud.dfy ===
/**
  `ConsultingCRUD`: the consulting operations of the store, each a function
  from the tables before the statement to the tables after it (and what it
  returns or raises). A raised error leaves the tables unchanged. The
  current local date-time, which the table's date default reads from the
  clock, is passed in as `now`.
 */
module ConsultingCrud {
  import opened Sql
  import opened Text
  import opened Models
  import opened Database
  import opened Tables

  /** The keyword arguments of `ConsultingCRUD.update`, one per column it may set. */
  datatype ConsultingPatch = ConsultingPatch(
    title: Field<string>,
    studentId: Field<int>,
    date: Field<string>,
    kind: Field<string>,
    party: Field<string>,
    content: Field<string>,
    opinion: Field<string>,
    note: Field<string>)

  /**
    The row that `INSERT INTO consultings (<keys of d>) VALUES (...)`
    stores under `id`: listed columns as given, the date at `now` when
    not listed, the other columns NULL.
   */
  function InsertedRow(d: map<ConsultingColumn, Value>, id: int, now: string): Consulting
  {
    Consulting(
      if ConsultingTitle in d && d[ConsultingTitle].TextV? then d[ConsultingTitle].s else "",
      if ConsultingStudentId in d && d[ConsultingStudentId].IntV? then d[ConsultingStudentId].i else 0,
      Some(id),
      if ConsultingDate in d then TextColumn(d, ConsultingDate) else Some(now),
      TextColumn(d, ConsultingType),
      TextColumn(d, ConsultingObject),
      TextColumn(d, ConsultingContent),
      TextColumn(d, ConsultingOpinion),
      TextColumn(d, ConsultingNote))
  }

  /**
    Inserting a consulting's `to_dict` stores that consulting under the
    new id; because `to_dict` leaves out an unset date, the date default
    applies to it.
   */
  lemma InsertedRowOfDict(c: Consulting, id: int, now: string)
    ensures InsertedRow(ConsultingToDict(c), id, now)
            == c.(id := Some(id), date := if c.date.Some? then c.date else Some(now))
  {
  }

  /**
    `ConsultingCRUD.create`: insert the non-None attributes and return
    the new id. The CHECK domains are tested first, then the primary key,
    then the foreign key to `students`.
   */
  function Create(st: Store, c: Consulting, now: string): (out: Step<int>)
    ensures out.result.Err? ==> out.store == st
    ensures out.result == Err(CheckViolation) <==> !ConsultingChecks(c)
    ensures out.result == Err(PrimaryKeyViolation) <==>
              ConsultingChecks(c) && c.id.Some? && c.id.value in st.consultings
    ensures out.result == Err(ForeignKeyViolation) <==>
              && ConsultingChecks(c)
              && !(c.id.Some? && c.id.value in st.consultings)
              && c.studentId !in st.students
    ensures out.result.Ok? <==>
              && ConsultingChecks(c)
              && !(c.id.Some? && c.id.value in st.consultings)
              && c.studentId in st.students
    ensures out.result.Ok? ==>
              var id := out.result.value;
              && c.studentId in st.students
              && id !in st.consultings
              && (c.id.Some? ==> id == c.id.value)
              && (c.id.None? ==> id > st.consultingSeq && forall k :: k in st.consultings ==> k < id)
              && out.store == st.(
                   consultings := st.consultings[id := c.(id := Some(id),
                                                          date := if c.date.Some? then c.date else Some(now))],
                   consultingSeq := if id > st.consultingSeq then id else st.consultingSeq)
  {
    var d := ConsultingToDict(c);
    var id := if ConsultingIdCol in d then d[ConsultingIdCol].i
              else NextId(st.consultingSeq, st.consultings.Keys);
    var row := InsertedRow(d, id, now);
    InsertedRowOfDict(c, id, now);
    if !ConsultingChecks(row) then Step(st, Err(CheckViolation))
    else if id in st.consultings then Step(st, Err(PrimaryKeyViolation))
    else if row.studentId !in st.students then Step(st, Err(ForeignKeyViolation))
    else
      Step(st.(consultings := st.consultings[id := row],
               consultingSeq := if id > st.consultingSeq then id else st.consultingSeq),
           Ok(id))
  }

  /** `ConsultingCRUD.get`: the stored row rebuilt as a `Consulting`, or None. */
  function Get(st: Store, id: int): (r: Option<Consulting>)
    ensures r.Some? <==> id in st.consultings
    ensures r.Some? ==> r.value == st.consultings[id]
  {
    if id in st.consultings then
      ConsultingDictRoundTrip(st.consultings[id]);
      ConsultingFromDict(ConsultingFields(st.consultings[id]))
    else None
  }

  /** `ConsultingCRUD.get_by_student`: that student's consultings, each once, newest first. */
  function GetByStudent(st: Store, studentId: int): (r: seq<Consulting>)
    requires ConsultingsKeyed(st)
    ensures forall x :: multiset(r)[x] ==
              if x in st.consultings.Values && x.studentId == studentId then 1 else 0
    ensures forall i, j :: 0 <= i < j < |r| ==> NullableLe(r[j].date, r[i].date)
  {
    DateDescendingIsTotalPreorder();
    ConsultingsInjective(st);
    SortBy(Filter(Rows(st.consultings), (x: Consulting) => x.studentId == studentId), DateDescending)
  }

  /** `ConsultingCRUD.get_all`: every consulting once, newest first. */
  function GetAll(st: Store): (r: seq<Consulting>)
    requires ConsultingsKeyed(st)
    ensures forall x :: multiset(r)[x] == if x in st.consultings.Values then 1 else 0
    ensures forall i, j :: 0 <= i < j < |r| ==> NullableLe(r[j].date, r[i].date)
  {
    DateDescendingIsTotalPreorder();
    ConsultingsInjective(st);
    SortBy(Rows(st.consultings), DateDescending)
  }

  predicate IsEmptyPatch(p: ConsultingPatch)
  {
    && p.title.Keep? && p.studentId.Keep? && p.date.Keep? && p.kind.Keep?
    && p.party.Keep? && p.content.Keep? && p.opinion.Keep? && p.note.Keep?
  }

  /** The stored consulting with the patch's columns written; `None` for a NULL title or student id. */
  function Apply(current: Consulting, p: ConsultingPatch): Option<Consulting>
  {
    if p.title == Set(None) || p.studentId == Set(None) then None
    else
      Some(current.(
        title := if p.title.Set? then p.title.value.value else current.title,
        studentId := if p.studentId.Set? then p.studentId.value.value else current.studentId,
        date := Patched(p.date, current.date),
        kind := Patched(p.kind, current.kind),
        party := Patched(p.party, current.party),
        content := Patched(p.content, current.content),
        opinion := Patched(p.opinion, current.opinion),
        note := Patched(p.note, current.note)))
  }

  /** The values the patch writes all lie in their CHECK domains. */
  predicate PatchInDomain(p: ConsultingPatch)
  {
    && (p.kind.Set? ==> InDomain(p.kind.value, ConsultingTypes))
    && (p.party.Set? ==> InDomain(p.party.value, ConsultingObjects))
  }

  /**
    `ConsultingCRUD.update`: one UPDATE of exactly the patched columns.
    An empty patch is a malformed statement; an unknown id updates
    nothing and raises nothing.
   */
  function Update(st: Store, id: int, p: ConsultingPatch): (out: Step<()>)
    ensures out.result.Err? ==> out.store == st
    ensures IsEmptyPatch(p) ==> out.result == Err(MalformedStatement)
    ensures !IsEmptyPatch(p) && id !in st.consultings ==> out == Step(st, Ok(()))
    ensures !IsEmptyPatch(p) && id in st.consultings && ConsultingChecks(st.consultings[id])
            && st.consultings[id].studentId in st.students ==>
              (out.result.Ok? <==>
                 && p.title != Set(None) && p.studentId != Set(None) && PatchInDomain(p)
                 && (p.studentId.Set? ==> p.studentId.value.value in st.students))
    ensures out.result.Ok? ==>
              && out.store.consultings.Keys == st.consultings.Keys
              && out.store.students == st.students
              && out.store.studentSeq == st.studentSeq
              && out.store.consultingSeq == st.consultingSeq
              && (forall k :: k in st.consultings && k != id ==> out.store.consultings[k] == st.consultings[k])
    ensures out.result.Ok? && id in st.consultings ==>
              var current := st.consultings[id];
              var c := out.store.consultings[id];
              && c.id == current.id
              && c.studentId in st.students
              && c.title == (if p.title.Set? && p.title.value.Some? then p.title.value.value else current.title)
              && c.studentId ==
                   (if p.studentId.Set? && p.studentId.value.Some? then p.studentId.value.value
                    else current.studentId)
              && c.date == Patched(p.date, current.date)
              && c.kind == Patched(p.kind, current.kind)
              && c.party == Patched(p.party, current.party)
              && c.content == Patched(p.content, current.content)
              && c.opinion == Patched(p.opinion, current.opinion)
              && c.note == Patched(p.note, current.note)
  {
    if IsEmptyPatch(p) then Step(st, Err(MalformedStatement))
    else if id !in st.consultings then Step(st, Ok(()))
    else
      var updated := Apply(st.consultings[id], p);
      if updated.None? then Step(st, Err(NotNullViolation))
      else if !ConsultingChecks(updated.value) then Step(st, Err(CheckViolation))
      else if updated.value.studentId !in st.students then Step(st, Err(ForeignKeyViolation))
      else Step(st.(consultings := st.consultings[id := updated.value]), Ok(()))
  }

  /** `ConsultingCRUD.delete`: that consulting goes; nothing else changes. */
  function Delete(st: Store, id: int): (r: Store)
    ensures r.consultings.Keys == st.consultings.Keys - {id}
    ensures forall k :: k in r.consultings ==> r.consultings[k] == st.consultings[k]
    ensures r.students == st.students
    ensures r.studentSeq == st.studentSeq && r.consultingSeq == st.consultingSeq
  {
    st.(consultings := st.consultings - {id})
  }

  /** The join `consultings JOIN students ON student_id`: the owner exists. */
  function JoinFilter(st: Store): Consulting -> bool
  {
    (x: Consulting) => x.studentId in st.students
  }

  /** `title LIKE '%title%'`. */
  function TitleFilter(title: Option<string>): Consulting -> bool
  {
    (x: Consulting) => Like(x.title, ArgText(title))
  }

  /** `student_name LIKE '%studentName%'`, on the joined student. */
  function StudentNameFilter(st: Store, studentName: Option<string>): Consulting -> bool
  {
    (x: Consulting) => x.studentId in st.students && Like(st.students[x.studentId].name, ArgText(studentName))
  }

  /** `consulting_type = ?`. */
  function KindFilter(kind: Option<string>): Consulting -> bool
  {
    (x: Consulting) => x.kind == kind
  }

  /** `consulting_date >= ?`: a NULL date never passes. */
  function StartFilter(startDate: Option<string>): Consulting -> bool
  {
    (x: Consulting) => x.date.Some? && LexLe(ArgText(startDate), x.date.value)
  }

  /** `consulting_date <= ?`: a NULL date never passes. */
  function EndFilter(endDate: Option<string>): Consulting -> bool
  {
    (x: Consulting) => x.date.Some? && LexLe(x.date.value, ArgText(endDate))
  }

  /**
    The WHERE conditions of `ConsultingCRUD.search`: the join with the
    owning student, then one condition per truthy argument.
   */
  function SearchConditions(st: Store, title: Option<string>, studentName: Option<string>,
                            kind: Option<string>, startDate: Option<string>, endDate: Option<string>)
    : seq<Consulting -> bool>
  {
    [JoinFilter(st)]
    + When(TextGiven(title), TitleFilter(title))
    + When(TextGiven(studentName), StudentNameFilter(st, studentName))
    + When(TextGiven(kind), KindFilter(kind))
    + When(TextGiven(startDate), StartFilter(startDate))
    + When(TextGiven(endDate), EndFilter(endDate))
  }

  /** What a consulting must satisfy to be found: the join and every given filter. */
  predicate SearchMatches(st: Store, x: Consulting, title: Option<string>, studentName: Option<string>,
                          kind: Option<string>, startDate: Option<string>, endDate: Option<string>)
  {
    && x.studentId in st.students
    && (TextGiven(title) ==> Like(x.title, title.value))
    && (TextGiven(studentName) ==> Like(st.students[x.studentId].name, studentName.value))
    && (TextGiven(kind) ==> x.kind == kind)
    && (TextGiven(startDate) ==> x.date.Some? && LexLe(startDate.value, x.date.value))
    && (TextGiven(endDate) ==> x.date.Some? && LexLe(x.date.value, endDate.value))
  }

  lemma SearchConditionsMatch(st: Store, x: Consulting, title: Option<string>, studentName: Option<string>,
                              kind: Option<string>, startDate: Option<string>, endDate: Option<string>)
    ensures AllHold(SearchConditions(st, title, studentName, kind, startDate, endDate), x)
            <==> SearchMatches(st, x, title, studentName, kind, startDate, endDate)
  {
    var joined := [JoinFilter(st)];
    var a := When(TextGiven(title), TitleFilter(title));
    var b := When(TextGiven(studentName), StudentNameFilter(st, studentName));
    var c := When(TextGiven(kind), KindFilter(kind));
    var d := When(TextGiven(startDate), StartFilter(startDate));
    var e := When(TextGiven(endDate), EndFilter(endDate));
    AllHoldConcat(joined + a + b + c + d, e, x);
    AllHoldConcat(joined + a + b + c, d, x);
    AllHoldConcat(joined + a + b, c, x);
    AllHoldConcat(joined + a, b, x);
    AllHoldConcat(joined, a, x);
    AllHoldWhen(true, JoinFilter(st), x);
    AllHoldWhen(TextGiven(title), TitleFilter(title), x);
    AllHoldWhen(TextGiven(studentName), StudentNameFilter(st, studentName), x);
    AllHoldWhen(TextGiven(kind), KindFilter(kind), x);
    AllHoldWhen(TextGiven(startDate), StartFilter(startDate), x);
    AllHoldWhen(TextGiven(endDate), EndFilter(endDate), x);
  }

  /**
    `ConsultingCRUD.search`: every consulting meeting all the given
    filters, each once, newest first. A falsy argument filters nothing;
    both date bounds are inclusive and a NULL date meets neither.
   */
  function Search(st: Store, title: Option<string>, studentName: Option<string>,
                  kind: Option<string>, startDate: Option<string>, endDate: Option<string>)
    : (r: seq<Consulting>)
    requires ConsultingsKeyed(st)
    ensures forall x :: multiset(r)[x] ==
              if x in st.consultings.Values
                 && SearchMatches(st, x, title, studentName, kind, startDate, endDate)
              then 1 else 0
    ensures forall i, j :: 0 <= i < j < |r| ==> NullableLe(r[j].date, r[i].date)
  {
    var conditions := SearchConditions(st, title, studentName, kind, startDate, endDate);
    assert forall x :: AllHold(conditions, x) <==>
             SearchMatches(st, x, title, studentName, kind, startDate, endDate) by {
      forall x
        ensures AllHold(conditions, x) <==>
                  SearchMatches(st, x, title, studentName, kind, startDate, endDate)
      {
        SearchConditionsMatch(st, x, title, studentName, kind, startDate, endDate);
      }
    }
    DateDescendingIsTotalPreorder();
    ConsultingsInjective(st);
    SortBy(Filter(Rows(st.consultings), (x: Consulting) => AllHold(conditions, x)), DateDescending)
  }
}

=== FILE: database.dfy ===
/**
  The two tables `students` and `consultings` as `init_database` declares
  them, held abstractly: each table is a map from its INTEGER PRIMARY KEY
  to the stored record, and each has the AUTOINCREMENT sequence value
  (the largest id the table has ever held).

  The declared constraints become predicates:
  - `StudentChecks`/`ConsultingChecks` are the CHECK domains (NULL passes
    a CHECK, as in SQL);
  - NOT NULL on the name, title and consulting student id is carried by
    the types (those fields are not `Option`s);
  - `Valid` is what the database guarantees of every state it is in:
    every record carries its own key, every value is in its domain, no id
    exceeds its table's sequence, and every consulting's student exists
    (the foreign key with ON DELETE CASCADE).
 */
module Database {
  import opened Sql
  import opened Models

  const Grades: set<int> := {1, 2, 3, 4, 5, 6}
  const Classes: set<int> := {1, 2, 3, 4}
  /** Male and female, in the institution's own labels. */
  const Sexes: set<string> := {"남", "여"}
  /** Phone, face to face, other. */
  const ConsultingTypes: set<string> := {"전화", "대면", "기타"}
  /** The student, family, a teacher, other. */
  const ConsultingObjects: set<string> := {"본인", "가족", "교사", "기타"}

  /** `CHECK(column IN (...))`: NULL passes, any other value must be listed. */
  predicate InDomain<T(==)>(v: Option<T>, domain: set<T>)
  {
    v.None? || v.value in domain
  }

  predicate StudentChecks(s: Student)
  {
    InDomain(s.grade, Grades) && InDomain(s.classNum, Classes) && InDomain(s.sex, Sexes)
  }

  predicate ConsultingChecks(c: Consulting)
  {
    InDomain(c.kind, ConsultingTypes) && InDomain(c.party, ConsultingObjects)
  }

  /** The student CHECKs as ranges: grade 1 to 6, class 1 to 4, one of the two sex labels. */
  lemma StudentChecksAsRanges(s: Student)
    ensures StudentChecks(s) <==>
              && (s.grade.Some? ==> 1 <= s.grade.value <= 6)
              && (s.classNum.Some? ==> 1 <= s.classNum.value <= 4)
              && (s.sex.Some? ==> s.sex.value == "남" || s.sex.value == "여")
  {
  }

  datatype Store = Store(
    students: map<int, Student>,
    consultings: map<int, Consulting>,
    studentSeq: int,
    consultingSeq: int)

  /** What a statement leaves behind: the tables afterwards and what it returned or raised. */
  datatype Step<+T> = Step(store: Store, result: Result<T>)

  /** Each row's id column is the key it is stored under. */
  predicate StudentsKeyed(st: Store)
  {
    forall k :: k in st.students ==> st.students[k].id == Some(k)
  }

  predicate ConsultingsKeyed(st: Store)
  {
    forall k :: k in st.consultings ==> st.consultings[k].id == Some(k)
  }

  predicate AllInDomain(st: Store)
  {
    && (forall k :: k in st.students ==> StudentChecks(st.students[k]))
    && (forall k :: k in st.consultings ==> ConsultingChecks(st.consultings[k]))
  }

  /** No id exceeds the largest id its table has ever held. */
  predicate WithinSequences(st: Store)
  {
    && (forall k :: k in st.students ==> k <= st.studentSeq)
    && (forall k :: k in st.consultings ==> k <= st.consultingSeq)
  }

  /** The foreign key: every consulting belongs to an existing student. */
  predicate NoOrphans(st: Store)
  {
    forall k :: k in st.consultings ==> st.consultings[k].studentId in st.students
  }

  predicate Valid(st: Store)
  {
    StudentsKeyed(st) && ConsultingsKeyed(st) && AllInDomain(st) && WithinSequences(st) && NoOrphans(st)
  }

  /** The database right after `init_database` created both tables. */
  function EmptyStore(): (st: Store)
    ensures Valid(st)
    ensures |st.students| == 0 && |st.consultings| == 0
  {
    Store(map[], map[], 0, 0)
  }

  /** A member of a non-empty set of ids. */
  lemma PickId(s: set<int>) returns (x: int)
    requires s != {}
    ensures x in s
  {
    // `s != {}` yields a member only through set extensionality, which
    // the solver does not apply by itself to the `:|` below; ruling out the
    // memberless case first hands it the witness.
    if forall y :: y !in s {
      assert false;
    }
    x :| x in s;
  }

  lemma {:induction false} LargestExists(keys: set<int>)
    requires keys != {}
    ensures exists m :: m in keys && forall k :: k in keys ==> k <= m
    decreases keys
  {
    var x := PickId(keys);
    if keys == {x} {
      assert forall k :: k in keys ==> k <= x;
    } else {
      var rest := keys - {x};
      LargestExists(rest);
      var m :| m in rest && forall k :: k in rest ==> k <= m;
      if m < x {
        assert forall k :: k in keys ==> k <= x by {
          forall k | k in keys ensures k <= x { if k != x { assert k in rest; } }
        }
      } else {
        assert forall k :: k in keys ==> k <= m by {
          forall k | k in keys ensures k <= m { if k != x { assert k in rest; } }
        }
      }
    }
  }

  /** The largest key of a non-empty table. */
  function Largest(keys: set<int>): (m: int)
    requires keys != {}
    ensures m in keys && forall k :: k in keys ==> k <= m
  {
    LargestExists(keys);
    var m :| m in keys && forall k :: k in keys ==> k <= m; m
  }

  /**
    The id an AUTOINCREMENT table gives a row inserted without one: one
    more than the largest id the table has ever held or holds now. It is
    above every present key and above every id ever handed out, so it is
    never reused; and it is the least such integer.
   */
  function NextId(seqValue: int, keys: set<int>): (id: int)
    ensures id > seqValue
    ensures forall k :: k in keys ==> k < id
    ensures id == seqValue + 1 || id - 1 in keys
  {
    if keys == {} then seqValue + 1
    else
      var m := Largest(keys);
      if m < seqValue then seqValue + 1 else m + 1
  }
}

=== FILE: models.dfy ===
/**
  The two record types of CareNote, `Student` and `Consulting`, with the
  dictionary views the store uses to insert and read them back:

  - `StudentToDict`/`ConsultingToDict` keep exactly the non-NULL
    attributes (the column list of an INSERT);
  - `StudentFromDict`/`ConsultingFromDict` rebuild a record from a row
    dictionary, as the dataclass constructor does with keyword arguments,
    giving absent keys their dataclass defaults.

  A student's history is held as the list of (grade, class) pairs it
  encodes; its JSON text form is not modelled.
 */
module Models {
  import opened Sql

  /** One past (grade, class) pairing of a student. */
  datatype HistoryEntry = HistoryEntry(grade: int, classNum: int)

  datatype Student = Student(
    name: string,
    id: Option<int>,
    phone: Option<string>,
    grade: Option<int>,
    classNum: Option<int>,
    sex: Option<string>,
    history: seq<HistoryEntry>)

  datatype Consulting = Consulting(
    title: string,
    studentId: int,
    id: Option<int>,
    date: Option<string>,
    kind: Option<string>,
    party: Option<string>,
    content: Option<string>,
    opinion: Option<string>,
    note: Option<string>)

  /** A column value: NULL, an INTEGER, a TEXT, or a decoded history list. */
  datatype Value = Null | IntV(i: int) | TextV(s: string) | HistoryV(h: seq<HistoryEntry>)

  /** The columns of the `students` table, which are the attribute names of `Student`. */
  datatype StudentColumn =
    | StudentName | StudentIdCol | StudentPhone | StudentGrade
    | StudentClass | StudentSex | StudentHistory

  /** The columns of the `consultings` table, which are the attribute names of `Consulting`. */
  datatype ConsultingColumn =
    | ConsultingTitle | ConsultingStudentId | ConsultingIdCol | ConsultingDate
    | ConsultingType | ConsultingObject | ConsultingContent
    | ConsultingOpinion | ConsultingNote

  function IntValue(o: Option<int>): Value {
    if o.Some? then IntV(o.value) else Null
  }

  function TextValue(o: Option<string>): Value {
    if o.Some? then TextV(o.value) else Null
  }

  /** `Student(name)`: every optional attribute unset, history empty. */
  function NewStudent(name: string): (s: Student)
    ensures s.name == name && s.history == []
    ensures s.id.None? && s.phone.None? && s.grade.None? && s.classNum.None? && s.sex.None?
  {
    Student(name, None, None, None, None, None, [])
  }

  /** `Consulting(title, student_id)`: every optional attribute unset. */
  function NewConsulting(title: string, studentId: int): (c: Consulting)
    ensures c.title == title && c.studentId == studentId
    ensures c.id.None? && c.date.None? && c.kind.None? && c.party.None?
    ensures c.content.None? && c.opinion.None? && c.note.None?
  {
    Consulting(title, studentId, None, None, None, None, None, None, None)
  }

  /** `getattr` on a student by column name. */
  function StudentAttr(s: Student, column: StudentColumn): Value
  {
    match column
    case StudentName => TextV(s.name)
    case StudentIdCol => IntValue(s.id)
    case StudentPhone => TextValue(s.phone)
    case StudentGrade => IntValue(s.grade)
    case StudentClass => IntValue(s.classNum)
    case StudentSex => TextValue(s.sex)
    case StudentHistory => HistoryV(s.history)
  }

  /** `getattr` on a consulting by column name. */
  function ConsultingAttr(c: Consulting, column: ConsultingColumn): Value
  {
    match column
    case ConsultingTitle => TextV(c.title)
    case ConsultingStudentId => IntV(c.studentId)
    case ConsultingIdCol => IntValue(c.id)
    case ConsultingDate => TextValue(c.date)
    case ConsultingType => TextValue(c.kind)
    case ConsultingObject => TextValue(c.party)
    case ConsultingContent => TextValue(c.content)
    case ConsultingOpinion => TextValue(c.opinion)
    case ConsultingNote => TextValue(c.note)
  }

  const AllStudentColumns: set<StudentColumn> :=
    {StudentName, StudentIdCol, StudentPhone, StudentGrade, StudentClass, StudentSex, StudentHistory}

  const AllConsultingColumns: set<ConsultingColumn> :=
    {ConsultingTitle, ConsultingStudentId, ConsultingIdCol, ConsultingDate, ConsultingType,
     ConsultingObject, ConsultingContent, ConsultingOpinion, ConsultingNote}

  lemma StudentColumnsComplete(k: StudentColumn)
    ensures k in AllStudentColumns
  {
    match k
    case StudentName =>
    case StudentIdCol =>
    case StudentPhone =>
    case StudentGrade =>
    case StudentClass =>
    case StudentSex =>
    case StudentHistory =>
  }

  lemma ConsultingColumnsComplete(k: ConsultingColumn)
    ensures k in AllConsultingColumns
  {
    match k
    case ConsultingTitle =>
    case ConsultingStudentId =>
    case ConsultingIdCol =>
    case ConsultingDate =>
    case ConsultingType =>
    case ConsultingObject =>
    case ConsultingContent =>
    case ConsultingOpinion =>
    case ConsultingNote =>
  }

  /** `dataclasses.asdict`: every attribute, NULL ones included. */
  function StudentFields(s: Student): (m: map<StudentColumn, Value>)
    ensures forall k :: k in m && m[k] == StudentAttr(s, k)
  {
    forall k ensures k in AllStudentColumns { StudentColumnsComplete(k); }
    map k | k in AllStudentColumns :: StudentAttr(s, k)
  }

  function ConsultingFields(c: Consulting): (m: map<ConsultingColumn, Value>)
    ensures forall k :: k in m && m[k] == ConsultingAttr(c, k)
  {
    forall k ensures k in AllConsultingColumns { ConsultingColumnsComplete(k); }
    map k | k in AllConsultingColumns :: ConsultingAttr(c, k)
  }

  function DropNulls<K>(m: map<K, Value>): map<K, Value>
  {
    map k | k in m && m[k] != Null :: m[k]
  }

  /** `Student.to_dict`: exactly the attributes that are not None. */
  function StudentToDict(s: Student): (d: map<StudentColumn, Value>)
    ensures forall k :: k in d <==> StudentAttr(s, k) != Null
    ensures forall k :: k in d ==> d[k] == StudentAttr(s, k)
    ensures StudentName in d && StudentHistory in d
    ensures StudentIdCol in d <==> s.id.Some?
  {
    DropNulls(StudentFields(s))
  }

  /** `Consulting.to_dict`: exactly the attributes that are not None. */
  function ConsultingToDict(c: Consulting): (d: map<ConsultingColumn, Value>)
    ensures forall k :: k in d <==> ConsultingAttr(c, k) != Null
    ensures forall k :: k in d ==> d[k] == ConsultingAttr(c, k)
    ensures ConsultingTitle in d && ConsultingStudentId in d
    ensures ConsultingIdCol in d <==> c.id.Some?
    ensures ConsultingDate in d <==> c.date.Some?
  {
    DropNulls(ConsultingFields(c))
  }

  /*
    Reading a keyword argument of the dataclass constructor into a typed
    field. An absent key or a NULL gives the default `None`; the outer
    `None` marks a value the field's type cannot hold. Python's dataclass
    does not check types and would store such a value as it is; the typed
    records here cannot, so those maps build nothing.
   */
  function IntArg<K>(d: map<K, Value>, k: K): Option<Option<int>>
  {
    if k !in d || d[k] == Null then Some(None)
    else if d[k].IntV? then Some(Some(d[k].i))
    else None
  }

  function TextArg<K>(d: map<K, Value>, k: K): Option<Option<string>>
  {
    if k !in d || d[k] == Null then Some(None)
    else if d[k].TextV? then Some(Some(d[k].s))
    else None
  }

  /** An INTEGER column of an INSERT's dictionary; NULL when not listed. */
  function IntColumn<K>(d: map<K, Value>, k: K): Option<int>
  {
    if k in d && d[k].IntV? then Some(d[k].i) else None
  }

  /** A TEXT column of an INSERT's dictionary; NULL when not listed. */
  function TextColumn<K>(d: map<K, Value>, k: K): Option<string>
  {
    if k in d && d[k].TextV? then Some(d[k].s) else None
  }

  /**
    `Student(**d)`. `None` when the name is missing (the constructor
    raises), and also when a value does not fit the record's field types,
    such as a NULL or non-text name; Python accepts those, the typed
    record cannot hold them.
   */
  function StudentFromDict(d: map<StudentColumn, Value>): (r: Option<Student>)
    ensures r.Some? ==> StudentName in d && d[StudentName] == TextV(r.value.name)
    ensures r.Some? && StudentHistory !in d ==> r.value.history == []
  {
    if StudentName !in d || !d[StudentName].TextV? then None
    else
      var id := IntArg(d, StudentIdCol);
      var phone := TextArg(d, StudentPhone);
      var grade := IntArg(d, StudentGrade);
      var classNum := IntArg(d, StudentClass);
      var sex := TextArg(d, StudentSex);
      var history :=
        if StudentHistory !in d then Some([])
        else if d[StudentHistory].HistoryV? then Some(d[StudentHistory].h)
        else None;
      if id.None? || phone.None? || grade.None? || classNum.None? || sex.None? || history.None?
      then None
      else Some(Student(d[StudentName].s, id.value, phone.value, grade.value,
                        classNum.value, sex.value, history.value))
  }

  /**
    `Consulting(**d)`. `None` when the title or student id is missing (the
    constructor raises), and also when a value does not fit the record's
    field types, such as a NULL title; Python accepts those, the typed
    record cannot hold them.
   */
  function ConsultingFromDict(d: map<ConsultingColumn, Value>): (r: Option<Consulting>)
    ensures r.Some? ==> ConsultingTitle in d && d[ConsultingTitle] == TextV(r.value.title)
    ensures r.Some? ==> ConsultingStudentId in d && d[ConsultingStudentId] == IntV(r.value.studentId)
  {
    if ConsultingTitle !in d || !d[ConsultingTitle].TextV? then None
    else if ConsultingStudentId !in d || !d[ConsultingStudentId].IntV? then None
    else
      var id := IntArg(d, ConsultingIdCol);
      var date := TextArg(d, ConsultingDate);
      var kind := TextArg(d, ConsultingType);
      var party := TextArg(d, ConsultingObject);
      var content := TextArg(d, ConsultingContent);
      var opinion := TextArg(d, ConsultingOpinion);
      var note := TextArg(d, ConsultingNote);
      if id.None? || date.None? || kind.None? || party.None? || content.None?
         || opinion.None? || note.None?
      then None
      else Some(Consulting(d[ConsultingTitle].s, d[ConsultingStudentId].i, id.value, date.value,
                           kind.value, party.value, content.value, opinion.value, note.value))
  }

  /** Rebuilding a student from its `to_dict` gives the same student back. */
  lemma StudentDictRoundTrip(s: Student)
    ensures StudentFromDict(StudentToDict(s)) == Some(s)
    ensures StudentFromDict(StudentFields(s)) == Some(s)
  {
  }

  /** Rebuilding a consulting from its `to_dict` gives the same consulting back. */
  lemma ConsultingDictRoundTrip(c: Consulting)
    ensures ConsultingFromDict(ConsultingToDict(c)) == Some(c)
    ensures ConsultingFromDict(ConsultingFields(c)) == Some(c)
  {
  }

  /**
    A NULL-free dictionary accepted by the constructor is the `to_dict` of
    the record it builds (for students, once it lists a history: a
    missing one comes back as the default empty list).
   */
  lemma StudentDictInverse(d: map<StudentColumn, Value>)
    requires forall k :: k in d ==> d[k] != Null
    requires StudentHistory in d
    requires StudentFromDict(d).Some?
    ensures StudentToDict(StudentFromDict(d).value) == d
  {
    var s := StudentFromDict(d).value;
    forall k
      ensures StudentAttr(s, k) == if k in d then d[k] else Null
    {
    }
  }

  lemma ConsultingDictInverse(d: map<ConsultingColumn, Value>)
    requires forall k :: k in d ==> d[k] != Null
    requires ConsultingFromDict(d).Some?
    ensures ConsultingToDict(ConsultingFromDict(d).value) == d
  {
    var c := ConsultingFromDict(d).value;
    forall k
      ensures ConsultingAttr(c, k) == if k in d then d[k] else Null
    {
    }
  }

  /** `Student.add_history`: one more entry at the end, nothing else touched. */
  function AddHistory(s: Student, grade: int, classNum: int): (r: Student)
    ensures |r.history| == |s.history| + 1
    ensures r.history[..|s.history|] == s.history
    ensures r.history[|s.history|] == HistoryEntry(grade, classNum)
    ensures r.(history := s.history) == s
  {
    s.(history := s.history + [HistoryEntry(grade, classNum)])
  }

  /** Adding entries one after another lists them in the order added. */
  lemma AddHistoryTwice(s: Student, g1: int, c1: int, g2: int, c2: int)
    ensures AddHistory(AddHistory(s, g1, c1), g2, c2).history
            == s.history + [HistoryEntry(g1, c1), HistoryEntry(g2, c2)]
  {
  }
}

=== FILE: sql.dfy ===
/**
  Values and outcomes shared by the whole model: SQL's nullable value and
  the ways a statement against the store can fail.
 */
module Sql {

  /** A nullable value: `None` is SQL NULL (Python's `None`). */
  datatype Option<+T> = None | Some(value: T)

  /**
    The exceptions the SQLite driver raises out of the store operations.
    Every one aborts its statement, so the tables are left as they were.
   */
  datatype DbError =
    | NotNullViolation      // a NOT NULL column was given NULL
    | CheckViolation        // a CHECK domain was violated
    | PrimaryKeyViolation   // an explicit id is already taken
    | ForeignKeyViolation   // a consulting names no existing student
    | MalformedStatement    // an UPDATE with an empty SET list

  datatype Result<+T> = Ok(value: T) | Err(error: DbError)

  /** Python truthiness of a nullable integer: None and 0 are false. */
  predicate Truthy(v: Option<int>)
  {
    v.Some? && v.value != 0
  }

  /** Python truthiness of a nullable string: None and "" are false. */
  predicate TextGiven(v: Option<string>)
  {
    v.Some? && v.value != ""
  }

  /** The text of a given string argument (the empty string for None). */
  function ArgText(v: Option<string>): string
  {
    if v.Some? then v.value else ""
  }

  /**
    One column of an UPDATE's SET list: `Keep` when the keyword is absent,
    `Set(v)` when it is given (`Set(None)` writes NULL).
   */
  datatype Field<+T> = Keep | Set(value: Option<T>)

  /** The column's value after the UPDATE. */
  function Patched<T>(f: Field<T>, current: Option<T>): Option<T>
  {
    if f.Set? then f.value else current
  }
}

=== FILE: store_lemmas.dfy ===
/**
  Properties that relate several store operations: every operation keeps
  the database invariant, reads return what writes stored, ids are never
  reused, the cascade leaves no orphans, history only grows, and search
  filters compose by AND.
 */
module StoreLemmas {
  import opened Sql
  import opened Text
  import opened Models
  import opened Database
  import opened Tables
  import StudentCrud
  import ConsultingCrud

  // ---------------------------------------------------------------------
  // The invariant is kept by every operation

  lemma StudentCreateKeepsValid(st: Store, s: Student)
    requires Valid(st)
    ensures Valid(StudentCrud.Create(st, s).store)
  {
  }

  lemma StudentUpdateKeepsValid(st: Store, id: int, p: StudentCrud.StudentPatch)
    requires Valid(st)
    ensures Valid(StudentCrud.Update(st, id, p).store)
  {
  }

  /** The cascade is what keeps the foreign key: no consulting outlives its student. */
  lemma StudentDeleteKeepsValid(st: Store, id: int)
    requires Valid(st)
    ensures Valid(StudentCrud.Delete(st, id))
  {
    var r := StudentCrud.Delete(st, id);
    forall k | k in r.consultings
      ensures r.consultings[k].studentId in r.students
    {
      assert r.consultings[k] == st.consultings[k];
    }
  }

  lemma ConsultingCreateKeepsValid(st: Store, c: Consulting, now: string)
    requires Valid(st)
    ensures Valid(ConsultingCrud.Create(st, c, now).store)
  {
  }

  lemma ConsultingUpdateKeepsValid(st: Store, id: int, p: ConsultingCrud.ConsultingPatch)
    requires Valid(st)
    ensures Valid(ConsultingCrud.Update(st, id, p).store)
  {
  }

  lemma ConsultingDeleteKeepsValid(st: Store, id: int)
    requires Valid(st)
    ensures Valid(ConsultingCrud.Delete(st, id))
  {
  }

  // ---------------------------------------------------------------------
  // Create, then get

  /**
    Creating a student whose values are in their domains, with no id or
    a free one, succeeds; `get` of the new id then returns the student as
    given, with that id.
   */
  lemma StudentCreateThenGet(st: Store, s: Student)
    requires StudentChecks(s) && !(s.id.Some? && s.id.value in st.students)
    ensures var out := StudentCrud.Create(st, s);
            && out.result.Ok?
            && StudentCrud.Get(out.store, out.result.value) == Some(s.(id := Some(out.result.value)))
  {
  }

  /**
    Creating a consulting whose values are in their domains, with no id
    or a free one, for an existing student succeeds; `get` of the new id
    then returns it as given, its date defaulted to `now` if unset.
   */
  lemma ConsultingCreateThenGet(st: Store, c: Consulting, now: string)
    requires ConsultingChecks(c) && !(c.id.Some? && c.id.value in st.consultings)
    requires c.studentId in st.students
    ensures var out := ConsultingCrud.Create(st, c, now);
            && out.result.Ok?
            && ConsultingCrud.Get(out.store, out.result.value)
            == Some(c.(id := Some(out.result.value), date := if c.date.Some? then c.date else Some(now)))
  {
  }

  /**
    A freshly constructed student (only a name) is stored under the next
    AUTOINCREMENT id with every optional column NULL and an empty history.
   */
  lemma NewStudentIsStored(st: Store, name: string)
    requires Valid(st)
    ensures var out := StudentCrud.Create(st, NewStudent(name));
            && out.result == Ok(NextId(st.studentSeq, st.students.Keys))
            && StudentCrud.Get(out.store, out.result.value)
               == Some(Student(name, Some(out.result.value), None, None, None, None, []))
  {
    assert StudentToDict(NewStudent(name)).Keys == {StudentName, StudentHistory};
  }

  /** A consulting naming no existing student is refused and nothing is stored. */
  lemma ConsultingForUnknownStudentRefused(st: Store, c: Consulting, now: string)
    requires ConsultingChecks(c) && c.id.None?
    requires c.studentId !in st.students
    ensures ConsultingCrud.Create(st, c, now) == Step(st, Err(ForeignKeyViolation))
  {
  }

  // ---------------------------------------------------------------------
  // AUTOINCREMENT ids

  /** No operation lowers either table's sequence. */
  lemma SequencesNeverDecrease(st: Store, id: int, s: Student, c: Consulting, now: string,
                               sp: StudentCrud.StudentPatch, cp: ConsultingCrud.ConsultingPatch)
    ensures st.studentSeq <= StudentCrud.Create(st, s).store.studentSeq
    ensures st.consultingSeq <= ConsultingCrud.Create(st, c, now).store.consultingSeq
    ensures StudentCrud.Update(st, id, sp).store.studentSeq == st.studentSeq
    ensures ConsultingCrud.Update(st, id, cp).store.consultingSeq == st.consultingSeq
    ensures StudentCrud.Delete(st, id).studentSeq == st.studentSeq
    ensures StudentCrud.Delete(st, id).consultingSeq == st.consultingSeq
    ensures ConsultingCrud.Delete(st, id).consultingSeq == st.consultingSeq
  {
  }

  /** The id of a deleted student is never handed out again. */
  lemma DeletedStudentIdNotReused(st: Store, deleted: int, s: Student)
    requires Valid(st) && deleted in st.students && s.id.None?
    ensures var out := StudentCrud.Create(StudentCrud.Delete(st, deleted), s);
            out.result.Ok? ==> out.result.value > deleted
  {
  }

  /** Nor is the id of a deleted consulting, whether deleted directly or by the cascade. */
  lemma DeletedConsultingIdNotReused(st: Store, deleted: int, student: int, c: Consulting, now: string)
    requires Valid(st) && deleted in st.consultings && c.id.None?
    ensures var out := ConsultingCrud.Create(ConsultingCrud.Delete(st, deleted), c, now);
            out.result.Ok? ==> out.result.value > deleted
    ensures var out := ConsultingCrud.Create(StudentCrud.Delete(st, student), c, now);
            out.result.Ok? ==> out.result.value > deleted
  {
  }

  // ---------------------------------------------------------------------
  // Deletion and the cascade

  lemma EmptyWhenNothingCounted<T>(r: seq<T>)
    requires forall x :: multiset(r)[x] == 0
    ensures r == []
  {
    assert multiset(r) == multiset{};
    assert |r| == |multiset(r)|;
  }

  /**
    Deleting a student removes exactly its consultings: `get_by_student`
    then finds none, each of them is gone, and every other consulting
    stays as it was.
   */
  lemma CascadeRemovesExactlyItsConsultings(st: Store, id: int)
    requires Valid(st)
    ensures var after := StudentCrud.Delete(st, id);
            && ConsultingCrud.GetByStudent(after, id) == []
            && (forall k :: k in st.consultings && st.consultings[k].studentId == id ==>
                  ConsultingCrud.Get(after, k).None?)
            && (forall k :: k in st.consultings && st.consultings[k].studentId != id ==>
                  ConsultingCrud.Get(after, k) == Some(st.consultings[k]))
  {
    var after := StudentCrud.Delete(st, id);
    StudentDeleteKeepsValid(st, id);
    var r := ConsultingCrud.GetByStudent(after, id);
    forall x
      ensures multiset(r)[x] == 0
    {
      if x in after.consultings.Values {
        var k :| k in after.consultings && after.consultings[k] == x;
      }
    }
    EmptyWhenNothingCounted(r);
  }

  /** Deleting a consulting removes it and nothing else. */
  lemma ConsultingDeleteRemovesOnlyIt(st: Store, id: int)
    ensures var after := ConsultingCrud.Delete(st, id);
            && ConsultingCrud.Get(after, id).None?
            && (forall k :: k != id && k in st.consultings ==>
                  ConsultingCrud.Get(after, k) == ConsultingCrud.Get(st, k))
            && (forall k :: StudentCrud.Get(after, k) == StudentCrud.Get(st, k))
  {
  }

  // ---------------------------------------------------------------------
  // History

  /** In a valid store a stored grade or class is never 0, so "truthy" is "not NULL". */
  lemma TriggerIsBothNonNull(st: Store, id: int, p: StudentCrud.StudentPatch)
    requires Valid(st) && id in st.students
    ensures StudentCrud.RecordsHistory(st.students[id], p) <==>
              && (p.grade.Set? || p.classNum.Set?)
              && st.students[id].grade.Some? && st.students[id].classNum.Some?
  {
  }

  /**
    An update that succeeds appends exactly the stored (grade, class)
    pairing when the trigger fires, an entry inside the CHECK domains,
    and otherwise leaves the history as it was (unless the patch writes
    a history itself).
   */
  lemma UpdateHistoryEffect(st: Store, id: int, p: StudentCrud.StudentPatch)
    requires Valid(st) && id in st.students
    requires StudentCrud.Update(st, id, p).result.Ok?
    ensures var before := st.students[id];
            var after := StudentCrud.Update(st, id, p).store.students[id];
            && (StudentCrud.RecordsHistory(before, p) ==>
                  && after.history == AddHistory(before, before.grade.value, before.classNum.value).history
                  && |after.history| == |before.history| + 1
                  && after.history[..|before.history|] == before.history
                  && after.history[|before.history|].grade in Grades
                  && after.history[|before.history|].classNum in Classes)
            && (!StudentCrud.RecordsHistory(before, p) && p.history.None? ==>
                  after.history == before.history)
            && (!StudentCrud.RecordsHistory(before, p) && p.history.Some? ==>
                  after.history == p.history.value)
  {
  }

  /** History only grows: without an explicit history, an update keeps the old one as a prefix. */
  lemma HistoryOnlyGrows(st: Store, id: int, p: StudentCrud.StudentPatch)
    requires id in st.students && p.history.None?
    ensures var before := st.students[id].history;
            var after := StudentCrud.Update(st, id, p).store.students[id].history;
            && |before| <= |after| <= |before| + 1
            && after[..|before|] == before
  {
  }

  /**
    A patch carrying an out-of-domain grade or class is refused as a
    whole: the record, history included, stays as it was.
   */
  lemma OutOfDomainUpdateRefused(st: Store, id: int, p: StudentCrud.StudentPatch)
    requires Valid(st) && id in st.students
    requires (p.grade.Set? && !InDomain(p.grade.value, Grades))
             || (p.classNum.Set? && !InDomain(p.classNum.value, Classes))
    ensures StudentCrud.Update(st, id, p).result.Err?
    ensures StudentCrud.Update(st, id, p).store.students[id] == st.students[id]
  {
  }

  /**
    The history walk-through: a student created in grade 3 class 2,
    moved to grade 4 class 1, then to grade 5 by grade alone.
   */
  lemma HistoryScenario()
    ensures
      var minSu := Student("Min Su", None, None, Some(3), Some(2), None, []);
      var created := StudentCrud.Create(EmptyStore(), minSu);
      var first := StudentCrud.Update(created.store, 1,
                     StudentCrud.StudentPatch(Keep, Keep, Set(Some(4)), Set(Some(1)), Keep, None));
      var second := StudentCrud.Update(first.store, 1,
                      StudentCrud.StudentPatch(Keep, Keep, Set(Some(5)), Keep, Keep, None));
      && created.result == Ok(1)
      && first.store.students[1].history == [HistoryEntry(3, 2)]
      && second.store.students[1].history == [HistoryEntry(3, 2), HistoryEntry(4, 1)]
      && second.store.students[1].grade == Some(5)
      && second.store.students[1].classNum == Some(1)
  {
    var minSu := Student("Min Su", None, None, Some(3), Some(2), None, []);
    var created := StudentCrud.Create(EmptyStore(), minSu);
    assert NextId(0, {}) == 1;
    assert created.result == Ok(1);
    assert created.store.students[1] == minSu.(id := Some(1));
  }

  // ---------------------------------------------------------------------
  // Searches

  /** Membership in a student search, read off its multiset contract. */
  lemma StudentFound(st: Store, name: Option<string>, grade: Option<int>,
                     classNum: Option<int>, x: Student)
    requires StudentsKeyed(st)
    ensures x in StudentCrud.Search(st, name, grade, classNum) <==>
              && x in st.students.Values
              && (TextGiven(name) ==> Like(x.name, name.value))
              && (Truthy(grade) ==> x.grade == grade)
              && (Truthy(classNum) ==> x.classNum == classNum)
  {
    var r := StudentCrud.Search(st, name, grade, classNum);
    assert x in r <==> multiset(r)[x] > 0;
  }

  /** A student search with several filters finds exactly what each filter alone would also find. */
  lemma StudentSearchIsConjunction(st: Store, name: Option<string>, grade: Option<int>,
                                   classNum: Option<int>, x: Student)
    requires StudentsKeyed(st)
    ensures x in StudentCrud.Search(st, name, grade, classNum) <==>
              && x in StudentCrud.Search(st, name, None, None)
              && x in StudentCrud.Search(st, None, grade, None)
              && x in StudentCrud.Search(st, None, None, classNum)
  {
    StudentFound(st, name, grade, classNum, x);
    StudentFound(st, name, None, None, x);
    StudentFound(st, None, grade, None, x);
    StudentFound(st, None, None, classNum, x);
  }

  /** One consulting is found by a search without filters as often as by `get_all`. */
  lemma FoundWithoutFiltersAsByGetAll(st: Store, x: Consulting)
    requires ConsultingsKeyed(st) && NoOrphans(st)
    ensures multiset(ConsultingCrud.Search(st, None, None, None, None, None))[x]
            == multiset(ConsultingCrud.GetAll(st))[x]
  {
    if x in st.consultings.Values {
      OwnerStored(st, x);
      assert ConsultingCrud.SearchMatches(st, x, None, None, None, None, None);
    }
  }

  /** Every stored consulting's student is stored too. */
  lemma OwnerStored(st: Store, x: Consulting)
    requires NoOrphans(st) && x in st.consultings.Values
    ensures x.studentId in st.students
  {
    // The scan lists x at some row, and every row is stored under a key.
    var r := Rows(st.consultings);
    var i :| 0 <= i < |r| && r[i] == x;
    var k :| k in st.consultings && st.consultings[k] == r[i];
  }

  /**
    With no filter given, a consulting search returns the same consultings
    as `get_all`, each once: the join drops nothing in a valid store. (Both
    are newest first; rows with equal dates may come out in either order.)
   */
  lemma ConsultingSearchWithoutFiltersIsGetAll(st: Store)
    requires Valid(st)
    ensures multiset(ConsultingCrud.Search(st, None, None, None, None, None))
            == multiset(ConsultingCrud.GetAll(st))
  {
    forall x {
      FoundWithoutFiltersAsByGetAll(st, x);
    }
  }

  /** Every consulting a date-range search returns lies within the inclusive range. */
  lemma DateRangeSearchWithinBounds(st: Store, start: string, end: string)
    requires ConsultingsKeyed(st) && start != "" && end != ""
    ensures forall x :: x in ConsultingCrud.Search(st, None, None, None, Some(start), Some(end)) ==>
              x.date.Some? && LexLe(start, x.date.value) && LexLe(x.date.value, end)
  {
    var r := ConsultingCrud.Search(st, None, None, None, Some(start), Some(end));
    forall x | x in r
      ensures x.date.Some? && LexLe(start, x.date.value) && LexLe(x.date.value, end)
    {
      assert x in multiset(r);
      assert ConsultingCrud.SearchMatches(st, x, None, None, None, Some(start), Some(end));
    }
  }

  /** A student is always found by any piece of its own name. */
  lemma StudentFoundByPartOfName(st: Store, id: int, i: nat, j: nat)
    requires StudentsKeyed(st) && id in st.students
    requires i <= j <= |st.students[id].name|
    ensures st.students[id] in StudentCrud.Search(st, Some(st.students[id].name[i..j]), None, None)
  {
    var s := st.students[id];
    LikeOwnSlice(s.name, i, j);
    assert multiset(StudentCrud.Search(st, Some(s.name[i..j]), None, None))[s] == 1;
  }
}

=== FILE: student_crud.dfy ===
/**
  `StudentCRUD`: the student operations of the store, each a function from
  the tables before the statement to the tables after it (and what it
  returns or raises). A raised error leaves the tables unchanged.
 */
module StudentCrud {
  import opened Sql
  import opened Text
  import opened Models
  import opened Database
  import opened Tables

  /** The keyword arguments of `StudentCRUD.update`, one per column it may set. */
  datatype StudentPatch = StudentPatch(
    name: Field<string>,
    phone: Field<string>,
    grade: Field<int>,
    classNum: Field<int>,
    sex: Field<string>,
    history: Option<seq<HistoryEntry>>)

  /**
    The row that `INSERT INTO students (<keys of d>) VALUES (...)` stores
    under `id`: listed columns as given, the others at their declared
    default (NULL, or the empty list for the history).
   */
  function InsertedRow(d: map<StudentColumn, Value>, id: int): Student
  {
    Student(
      if StudentName in d && d[StudentName].TextV? then d[StudentName].s else "",
      Some(id),
      TextColumn(d, StudentPhone),
      IntColumn(d, StudentGrade),
      IntColumn(d, StudentClass),
      TextColumn(d, StudentSex),
      if StudentHistory in d && d[StudentHistory].HistoryV? then d[StudentHistory].h else [])
  }

  /** Inserting a student's `to_dict` stores that very student under the new id. */
  lemma InsertedRowOfDict(s: Student, id: int)
    ensures InsertedRow(StudentToDict(s), id) == s.(id := Some(id))
  {
  }

  /**
    `StudentCRUD.create`: insert the non-None attributes and return the
    new id. A record without an id gets the next AUTOINCREMENT id; one
    with an id keeps it unless that id is taken.
   */
  function Create(st: Store, s: Student): (out: Step<int>)
    ensures out.result.Err? ==> out.store == st
    ensures out.result == Err(CheckViolation) <==> !StudentChecks(s)
    ensures out.result == Err(PrimaryKeyViolation) <==>
              StudentChecks(s) && s.id.Some? && s.id.value in st.students
    ensures out.result.Ok? <==> StudentChecks(s) && !(s.id.Some? && s.id.value in st.students)
    ensures out.result.Ok? ==>
              var id := out.result.value;
              && id !in st.students
              && (s.id.Some? ==> id == s.id.value)
              && (s.id.None? ==> id > st.studentSeq && forall k :: k in st.students ==> k < id)
              && out.store == st.(students := st.students[id := s.(id := Some(id))],
                                  studentSeq := if id > st.studentSeq then id else st.studentSeq)
  {
    var d := StudentToDict(s);
    var id := if StudentIdCol in d then d[StudentIdCol].i else NextId(st.studentSeq, st.students.Keys);
    var row := InsertedRow(d, id);
    InsertedRowOfDict(s, id);
    if !StudentChecks(row) then Step(st, Err(CheckViolation))
    else if id in st.students then Step(st, Err(PrimaryKeyViolation))
    else
      Step(st.(students := st.students[id := row],
               studentSeq := if id > st.studentSeq then id else st.studentSeq),
           Ok(id))
  }

  /** `StudentCRUD.get`: the stored row rebuilt as a `Student`, or None. */
  function Get(st: Store, id: int): (r: Option<Student>)
    ensures r.Some? <==> id in st.students
    ensures r.Some? ==> r.value == st.students[id]
  {
    if id in st.students then
      StudentDictRoundTrip(st.students[id]);
      StudentFromDict(StudentFields(st.students[id]))
    else None
  }

  /** `StudentCRUD.get_all`: every student once, ordered by name. */
  function GetAll(st: Store): (r: seq<Student>)
    requires StudentsKeyed(st)
    ensures forall x :: multiset(r)[x] == if x in st.students.Values then 1 else 0
    ensures forall i, j :: 0 <= i < j < |r| ==> LexLe(r[i].name, r[j].name)
  {
    NameAscendingIsTotalPreorder();
    StudentsInjective(st);
    SortBy(Rows(st.students), NameAscending)
  }

  predicate IsEmptyPatch(p: StudentPatch)
  {
    p.name.Keep? && p.phone.Keep? && p.grade.Keep? && p.classNum.Keep? && p.sex.Keep?
    && p.history.None?
  }

  /**
    The history trigger: the patch names the grade or the class (whatever
    the new value, NULL included) and the stored grade and class are both
    truthy.
   */
  predicate RecordsHistory(current: Student, p: StudentPatch)
  {
    (p.grade.Set? || p.classNum.Set?) && Truthy(current.grade) && Truthy(current.classNum)
  }

  /** The history the UPDATE writes: the stored pairing appended when triggered. */
  function UpdatedHistory(current: Student, p: StudentPatch): (h: seq<HistoryEntry>)
    ensures RecordsHistory(current, p) ==>
              && |h| == |current.history| + 1
              && h[..|current.history|] == current.history
              && h[|current.history|] == HistoryEntry(current.grade.value, current.classNum.value)
    ensures !RecordsHistory(current, p) && p.history.None? ==> h == current.history
    ensures !RecordsHistory(current, p) && p.history.Some? ==> h == p.history.value
  {
    if RecordsHistory(current, p) then
      AddHistory(current, current.grade.value, current.classNum.value).history
    else if p.history.Some? then p.history.value
    else current.history
  }

  /** The stored student with the patch's columns written; `None` for a NULL name. */
  function Apply(current: Student, p: StudentPatch): Option<Student>
  {
    if p.name == Set(None) then None
    else
      Some(current.(
        name := if p.name.Set? then p.name.value.value else current.name,
        phone := Patched(p.phone, current.phone),
        grade := Patched(p.grade, current.grade),
        classNum := Patched(p.classNum, current.classNum),
        sex := Patched(p.sex, current.sex),
        history := UpdatedHistory(current, p)))
  }

  /** The values the patch writes all lie in their CHECK domains. */
  predicate PatchInDomain(p: StudentPatch)
  {
    && (p.grade.Set? ==> InDomain(p.grade.value, Grades))
    && (p.classNum.Set? ==> InDomain(p.classNum.value, Classes))
    && (p.sex.Set? ==> InDomain(p.sex.value, Sexes))
  }

  /**
    `StudentCRUD.update`: one UPDATE of the patched columns, with the
    history column added when the trigger fires. An empty patch is a
    malformed statement; an unknown id updates nothing and raises nothing.
   */
  function Update(st: Store, id: int, p: StudentPatch): (out: Step<()>)
    ensures out.result.Err? ==> out.store == st
    ensures IsEmptyPatch(p) ==> out.result == Err(MalformedStatement)
    ensures !IsEmptyPatch(p) && id !in st.students ==> out == Step(st, Ok(()))
    ensures !IsEmptyPatch(p) && id in st.students && StudentChecks(st.students[id]) ==>
              (out.result.Ok? <==> p.name != Set(None) && PatchInDomain(p))
    ensures out.result.Ok? ==>
              && out.store.students.Keys == st.students.Keys
              && out.store.consultings == st.consultings
              && out.store.studentSeq == st.studentSeq
              && out.store.consultingSeq == st.consultingSeq
              && (forall k :: k in st.students && k != id ==> out.store.students[k] == st.students[k])
    ensures out.result.Ok? && id in st.students ==>
              var current := st.students[id];
              var s := out.store.students[id];
              && s.id == current.id
              && s.name == (if p.name.Set? && p.name.value.Some? then p.name.value.value else current.name)
              && s.phone == Patched(p.phone, current.phone)
              && s.grade == Patched(p.grade, current.grade)
              && s.classNum == Patched(p.classNum, current.classNum)
              && s.sex == Patched(p.sex, current.sex)
              && s.history == UpdatedHistory(current, p)
  {
    if IsEmptyPatch(p) then Step(st, Err(MalformedStatement))
    else if id !in st.students then Step(st, Ok(()))
    else
      var updated := Apply(st.students[id], p);
      if updated.None? then Step(st, Err(NotNullViolation))
      else if !StudentChecks(updated.value) then Step(st, Err(CheckViolation))
      else Step(st.(students := st.students[id := updated.value]), Ok(()))
  }

  /**
    `StudentCRUD.delete`: the student goes, and with it (ON DELETE
    CASCADE, in the same statement) every consulting that names it. An
    unknown id deletes nothing.
   */
  function Delete(st: Store, id: int): (r: Store)
    ensures r.students.Keys == st.students.Keys - {id}
    ensures forall k :: k in r.students ==> r.students[k] == st.students[k]
    ensures forall k :: k in r.consultings <==>
              k in st.consultings && (id !in st.students || st.consultings[k].studentId != id)
    ensures forall k :: k in r.consultings ==> r.consultings[k] == st.consultings[k]
    ensures r.studentSeq == st.studentSeq && r.consultingSeq == st.consultingSeq
  {
    if id !in st.students then st
    else
      st.(students := st.students - {id},
          consultings := map k | k in st.consultings && st.consultings[k].studentId != id
                           :: st.consultings[k])
  }

  /** `student_name LIKE '%name%'`. */
  function NameFilter(name: Option<string>): Student -> bool
  {
    (x: Student) => Like(x.name, ArgText(name))
  }

  /** `grade = ?`. */
  function GradeFilter(grade: Option<int>): Student -> bool
  {
    (x: Student) => x.grade == grade
  }

  /** `class = ?`. */
  function ClassFilter(classNum: Option<int>): Student -> bool
  {
    (x: Student) => x.classNum == classNum
  }

  /**
    The WHERE conditions `StudentCRUD.search` appends, one per truthy
    argument: name LIKE, grade equality, class equality.
   */
  function SearchConditions(name: Option<string>, grade: Option<int>, classNum: Option<int>)
    : seq<Student -> bool>
  {
    When(TextGiven(name), NameFilter(name))
    + When(Truthy(grade), GradeFilter(grade))
    + When(Truthy(classNum), ClassFilter(classNum))
  }

  /**
    `StudentCRUD.search`: every student meeting all the given filters,
    each once, in no promised order. A falsy argument filters nothing.
   */
  function Search(st: Store, name: Option<string>, grade: Option<int>, classNum: Option<int>)
    : (r: seq<Student>)
    requires StudentsKeyed(st)
    ensures forall x :: multiset(r)[x] ==
              if && x in st.students.Values
                 && (TextGiven(name) ==> Like(x.name, name.value))
                 && (Truthy(grade) ==> x.grade == grade)
                 && (Truthy(classNum) ==> x.classNum == classNum)
              then 1 else 0
  {
    var conditions := SearchConditions(name, grade, classNum);
    var byName := When(TextGiven(name), NameFilter(name));
    var byGrade := When(Truthy(grade), GradeFilter(grade));
    var byClass := When(Truthy(classNum), ClassFilter(classNum));
    assert forall x: Student :: AllHold(conditions, x) <==>
             && (TextGiven(name) ==> Like(x.name, name.value))
             && (Truthy(grade) ==> x.grade == grade)
             && (Truthy(classNum) ==> x.classNum == classNum)
    by {
      forall x: Student
        ensures AllHold(conditions, x) <==>
                  && (TextGiven(name) ==> Like(x.name, name.value))
                  && (Truthy(grade) ==> x.grade == grade)
                  && (Truthy(classNum) ==> x.classNum == classNum)
      {
        AllHoldConcat(byName + byGrade, byClass, x);
        AllHoldConcat(byName, byGrade, x);
        AllHoldWhen(TextGiven(name), NameFilter(name), x);
        AllHoldWhen(Truthy(grade), GradeFilter(grade), x);
        AllHoldWhen(Truthy(classNum), ClassFilter(classNum), x);
      }
    }
    StudentsInjective(st);
    Filter(Rows(st.students), (x: Student) => AllHold(conditions, x))
  }
}

=== FILE: tables.dfy ===
/**
  How a SELECT reads the tables: a full scan of a table (`Rows`), a WHERE
  clause keeping the rows that satisfy it (`Filter`), and an ORDER BY
  (`SortBy`) under a total preorder. Ties in an ORDER BY may come out in
  any order, so nothing is promised about them.
 */
module Tables {
  import opened Text
  import opened Models
  import opened Database

  /** No record is stored under two keys. */
  predicate Injective<T(==)>(m: map<int, T>)
  {
    forall a, b :: a in m && b in m && a != b ==> m[a] != m[b]
  }

  /** A keyed table stores distinct records under distinct keys. */
  lemma StudentsInjective(st: Store)
    requires StudentsKeyed(st)
    ensures Injective(st.students)
  {
  }

  lemma ConsultingsInjective(st: Store)
    requires ConsultingsKeyed(st)
    ensures Injective(st.consultings)
  {
  }

  /**
    A full scan of a table: every stored record, each once. (The scan goes
    in ascending id order, but no query promises that order.)
   */
  function Rows<T(==,!new)>(m: map<int, T>): (r: seq<T>)
    ensures |r| == |m|
    ensures forall v :: v in r <==> v in m.Values
    ensures Injective(m) ==> forall v :: multiset(r)[v] == if v in m.Values then 1 else 0
    ensures forall i :: 0 <= i < |r| ==> exists k :: k in m && m[k] == r[i]
    decreases |m|
  {
    if m.Keys == {} then []
    else
      var k := Largest(m.Keys);
      var rest := m - {k};
      assert |rest| < |m| by {
        assert rest.Keys == m.Keys - {k};
      }
      var r := Rows(rest) + [m[k]];
      assert forall v :: v in m.Values <==> v in rest.Values || v == m[k] by {
        forall v | v in m.Values
          ensures v in rest.Values || v == m[k]
        {
          var j :| j in m && m[j] == v;
          if j != k {
            assert j in rest;
          }
        }
      }
      assert Injective(m) ==> m[k] !in rest.Values;
      r
  }

  /** The rows of `s` that satisfy `p`, in the order of `s`. */
  function Filter<T(!new)>(s: seq<T>, p: T -> bool): (r: seq<T>)
    ensures |r| <= |s|
    ensures forall x :: multiset(r)[x] == if p(x) then multiset(s)[x] else 0
  {
    if s == [] then []
    else
      assert s == [s[0]] + s[1..];
      var rest := Filter(s[1..], p);
      if p(s[0]) then [s[0]] + rest else rest
  }

  /** A WHERE clause every row satisfies (`WHERE 1=1` alone) keeps the rows as they are. */
  lemma {:induction false} FilterKeepsAll<T(!new)>(s: seq<T>, p: T -> bool)
    requires forall x :: x in s ==> p(x)
    ensures Filter(s, p) == s
  {
    if s != [] {
      FilterKeepsAll(s[1..], p);
      assert s == [s[0]] + s[1..];
    }
  }

  /**
    A WHERE clause built as `1=1 AND c1 AND c2 ...`: it holds of a row when
    every listed condition does (so the empty list keeps every row).
   */
  predicate AllHold<T>(conditions: seq<T -> bool>, x: T)
  {
    forall i :: 0 <= i < |conditions| ==> conditions[i](x)
  }

  /** The condition a search appends only when its argument is given. */
  function When<T>(given: bool, c: T -> bool): seq<T -> bool>
  {
    if given then [c] else []
  }

  lemma AllHoldWhen<T>(given: bool, c: T -> bool, x: T)
    ensures AllHold(When(given, c), x) <==> (given ==> c(x))
  {
    if given {
      assert When(given, c)[0] == c;
    }
  }

  /** Joining two lists of conditions with AND. */
  lemma AllHoldConcat<T>(a: seq<T -> bool>, b: seq<T -> bool>, x: T)
    ensures AllHold(a + b, x) <==> AllHold(a, x) && AllHold(b, x)
  {
    if AllHold(a, x) && AllHold(b, x) {
      forall i | 0 <= i < |a + b|
        ensures (a + b)[i](x)
      {
        if i >= |a| {
          assert (a + b)[i] == b[i - |a|];
        }
      }
    }
    if AllHold(a + b, x) {
      forall i | 0 <= i < |a|
        ensures a[i](x)
      {
        assert (a + b)[i] == a[i];
      }
      forall i | 0 <= i < |b|
        ensures b[i](x)
      {
        assert (a + b)[i + |a|] == b[i];
      }
    }
  }

  /** `le` orders all values: it is total and transitive (ties allowed). */
  ghost predicate TotalPreorder<T(!new)>(le: (T, T) -> bool)
  {
    && (forall a, b :: le(a, b) || le(b, a))
    && (forall a, b, c :: le(a, b) && le(b, c) ==> le(a, c))
  }

  predicate SortedBy<T>(s: seq<T>, le: (T, T) -> bool)
  {
    forall i, j :: 0 <= i < j < |s| ==> le(s[i], s[j])
  }

  /** A row ordered before every row of a sorted list may lead it. */
  lemma SortedCons<T>(h: T, t: seq<T>, le: (T, T) -> bool)
    requires SortedBy(t, le)
    requires forall y :: y in t ==> le(h, y)
    ensures SortedBy([h] + t, le)
  {
    forall i, j | 0 <= i < j < |[h] + t|
      ensures le(([h] + t)[i], ([h] + t)[j])
    {
      assert ([h] + t)[j] == t[j - 1];
      if i > 0 {
        assert ([h] + t)[i] == t[i - 1];
      }
    }
  }

  /** A row ordered before the head of a sorted list is ordered before all of it. */
  lemma BelowHead<T(!new)>(x: T, s: seq<T>, le: (T, T) -> bool)
    requires TotalPreorder(le)
    requires SortedBy(s, le)
    requires s != [] && le(x, s[0])
    ensures forall y :: y in s ==> le(x, y)
  {
    forall y | y in s
      ensures le(x, y)
    {
      var j :| 0 <= j < |s| && s[j] == y;
      if j > 0 {
        assert le(s[0], s[j]);
      }
    }
  }

  /** The head of a sorted list is ordered before everything inserting a later row can produce. */
  lemma HeadBelowInsert<T(!new)>(x: T, s: seq<T>, rest: seq<T>, le: (T, T) -> bool)
    requires TotalPreorder(le)
    requires SortedBy(s, le)
    requires s != [] && !le(x, s[0])
    requires multiset(rest) == multiset(s[1..]) + multiset{x}
    ensures forall y :: y in rest ==> le(s[0], y)
  {
    forall y | y in rest
      ensures le(s[0], y)
    {
      assert y in multiset(rest);
      if y != x {
        assert y in multiset(s[1..]);
        var j :| 0 <= j < |s[1..]| && s[1..][j] == y;
        assert le(s[0], s[j + 1]);
      }
    }
  }

  function InsertBy<T(!new)>(x: T, s: seq<T>, le: (T, T) -> bool): (r: seq<T>)
    requires TotalPreorder(le)
    requires SortedBy(s, le)
    ensures SortedBy(r, le)
    ensures multiset(r) == multiset(s) + multiset{x}
    decreases |s|
  {
    if s == [] then
      [x]
    else if le(x, s[0]) then
      BelowHead(x, s, le);
      SortedCons(x, s, le);
      [x] + s
    else
      assert s == [s[0]] + s[1..];
      var rest := InsertBy(x, s[1..], le);
      assert SortedBy(s[1..], le);
      HeadBelowInsert(x, s, rest, le);
      SortedCons(s[0], rest, le);
      [s[0]] + rest
  }

  /** ORDER BY: a permutation of `s` in which `le` holds between every earlier and later row. */
  function SortBy<T(!new)>(s: seq<T>, le: (T, T) -> bool): (r: seq<T>)
    requires TotalPreorder(le)
    ensures SortedBy(r, le)
    ensures multiset(r) == multiset(s)
  {
    if s == [] then []
    else
      assert s == [s[0]] + s[1..];
      InsertBy(s[0], SortBy(s[1..], le), le)
  }

  /** `ORDER BY student_name`. */
  const NameAscending: (Student, Student) -> bool :=
    (a: Student, b: Student) => LexLe(a.name, b.name)

  /** `ORDER BY consulting_date DESC`: later dates first, NULL dates last. */
  const DateDescending: (Consulting, Consulting) -> bool :=
    (a: Consulting, b: Consulting) => NullableLe(b.date, a.date)

  lemma NameAscendingIsTotalPreorder()
    ensures TotalPreorder(NameAscending)
  {
    forall a: Student, b: Student
      ensures NameAscending(a, b) || NameAscending(b, a)
    {
      LexLeTotal(a.name, b.name);
    }
    forall a: Student, b: Student, c: Student | NameAscending(a, b) && NameAscending(b, c)
      ensures NameAscending(a, c)
    {
      LexLeTransitive(a.name, b.name, c.name);
    }
  }

  lemma DateDescendingIsTotalPreorder()
    ensures TotalPreorder(DateDescending)
  {
    forall a: Consulting, b: Consulting
      ensures DateDescending(a, b) || DateDescending(b, a)
    {
      NullableLeTotal(a.date, b.date);
    }
    forall a: Consulting, b: Consulting, c: Consulting | DateDescending(a, b) && DateDescending(b, c)
      ensures DateDescending(a, c)
    {
      NullableLeTransitive(c.date, b.date, a.date);
    }
  }
}

=== FILE: text.dfy ===
/**
  Text comparison as the store's SQLite engine performs it on TEXT columns.

  - `LexLe` is the BINARY collation used by `ORDER BY` and by `>=`/`<=`
    between two TEXT values: code point by code point, a proper prefix
    sorting first. (Comparing code points is the same as comparing the
    UTF-8 bytes SQLite stores.) Dafny's own `<` on sequences means
    "proper prefix", so the order is defined here.
  - `Like(text, needle)` is `text LIKE '%' || needle || '%'`: unanchored
    containment, case-insensitive for ASCII letters only.
 */
module Text {
  import opened Sql

  /** Lexicographic "less than or equal" on strings. */
  predicate LexLe(a: string, b: string)
    decreases |a|
  {
    |a| == 0 || (|b| > 0 && (a[0] < b[0] || (a[0] == b[0] && LexLe(a[1..], b[1..]))))
  }

  lemma {:induction false} LexLeTotal(a: string, b: string)
    ensures LexLe(a, b) || LexLe(b, a)
    decreases |a|
  {
    if |a| > 0 && |b| > 0 && a[0] == b[0] {
      LexLeTotal(a[1..], b[1..]);
    }
  }

  lemma {:induction false} LexLeAntisymmetric(a: string, b: string)
    requires LexLe(a, b) && LexLe(b, a)
    ensures a == b
    decreases |a|
  {
    if |a| > 0 {
      LexLeAntisymmetric(a[1..], b[1..]);
      assert a == [a[0]] + a[1..];
      assert b == [b[0]] + b[1..];
    }
  }

  lemma {:induction false} LexLeTransitive(a: string, b: string, c: string)
    requires LexLe(a, b) && LexLe(b, c)
    ensures LexLe(a, c)
    decreases |a|
  {
    if |a| > 0 && a[0] == b[0] && b[0] == c[0] {
      LexLeTransitive(a[1..], b[1..], c[1..]);
    }
  }

  /** A prefix never sorts after the string it begins. */
  lemma {:induction false} PrefixLexLe(a: string, b: string)
    requires |a| <= |b| && a == b[..|a|]
    ensures LexLe(a, b)
    decreases |a|
  {
    if |a| > 0 {
      assert a[1..] == b[1..][..|a| - 1];
      PrefixLexLe(a[1..], b[1..]);
    }
  }

  /**
    Order of a nullable TEXT value as `ORDER BY` sees it: NULL sorts
    before every string.
   */
  predicate NullableLe(a: Option<string>, b: Option<string>)
  {
    a.None? || (b.Some? && LexLe(a.value, b.value))
  }

  lemma NullableLeTotal(a: Option<string>, b: Option<string>)
    ensures NullableLe(a, b) || NullableLe(b, a)
  {
    if a.Some? && b.Some? {
      LexLeTotal(a.value, b.value);
    }
  }

  lemma NullableLeTransitive(a: Option<string>, b: Option<string>, c: Option<string>)
    requires NullableLe(a, b) && NullableLe(b, c)
    ensures NullableLe(a, c)
  {
    if a.Some? {
      LexLeTransitive(a.value, b.value, c.value);
    }
  }

  /** ASCII upper-case letters fold to lower case; every other character is kept. */
  function FoldChar(c: char): (d: char)
    ensures 'A' <= c <= 'Z' ==> 'a' <= d <= 'z' && d as int - c as int == 32
    ensures !('A' <= c <= 'Z') ==> d == c
  {
    if 'A' <= c <= 'Z' then (c as int + 32) as char else c
  }

  function Fold(s: string): (r: string)
    ensures |r| == |s|
    ensures forall i :: 0 <= i < |s| ==> r[i] == FoldChar(s[i])
  {
    seq(|s|, i requires 0 <= i < |s| => FoldChar(s[i]))
  }

  /** `needle` occurs in `text` starting at position `i`. */
  predicate OccursAt(text: string, needle: string, i: int)
  {
    0 <= i <= |text| - |needle| && text[i..i + |needle|] == needle
  }

  /** `needle` occurs in `text` at some position. */
  predicate Contains(text: string, needle: string)
  {
    exists i | 0 <= i <= |text| - |needle| :: OccursAt(text, needle, i)
  }

  /** `text LIKE '%needle%'` for a needle without wildcard characters. */
  predicate Like(text: string, needle: string)
  {
    Contains(Fold(text), Fold(needle))
  }

  /** A text matches every pattern cut out of it, whatever the case. */
  lemma LikeOwnSlice(text: string, i: nat, j: nat)
    requires i <= j <= |text|
    ensures Like(text, text[i..j])
  {
    var f := Fold(text);
    var n := Fold(text[i..j]);
    assert OccursAt(f, n, i);
  }

  /** ASCII case does not affect LIKE: `Like(t, n)` iff it holds with `n` folded. */
  lemma LikeIgnoresAsciiCase(text: string, needle: string)
    ensures Like(text, needle) <==> Like(text, Fold(needle))
  {
    FoldIdempotent(needle);
  }

  lemma FoldIdempotent(s: string)
    ensures Fold(Fold(s)) == Fold(s)
  {
  }
}
